=== FILE: README.md ===
# Object detection service — a Dafny model

This project models the decision logic of a small object-detection service built
around an opaque detection model. The logic has four parts:

- **Serving path** (`main.py`, `app/detector.py`): `POST /detect` checks that the model is
  loaded and that the upload is an image, decodes it, and runs the model once at the
  fixed threshold 0.35. Each raw box becomes a `{class, confidence, bbox}` record.
  The annotated image is saved under a fresh name and the handler answers with the
  records, their count and the image URL.
- **Batch pipeline** (`batch_process.py`): the pipeline keeps the `.png`/`.jpeg`/`.jpg` entries
  of a directory listing and runs the model on each at `--conf`. It keeps the boxes
  whose class is on the optional `--classes` allow-list, truncating corners to
  integer pixels. It draws and saves every image that keeps at least one box, and
  writes one `results.json` report. An exception anywhere aborts the run before the
  report is written: the model call raising or returning no result, a class index
  missing from the class table, or saving an annotated image that could not be read.
- **Frame sampler** (`extract_frames.py`): the sampler saves every `interval`-th frame of a
  video as `frame_000.jpg`, `frame_001.jpg`, …, where
  `interval = max(1, total // target)`. It stops after `target` saves or at the end of
  the stream.

The model, image decoding, image reading, drawing and number formatting are opaque
collaborators. They enter the model as function-typed parameters: `infer`,
`decode`, `imread`, `round2` and `fixed2`. The model is stated over those
parameters for every choice of them. An exception is an explicit outcome value:
`Raised`, `Failed`, `Aborted` or `ZeroDivision`.

Modules (one per file):

| file | module | models |
|---|---|---|
| `common.dfy` | `Common` | Option/Result, raw boxes, Python `int()` on floats, POSIX `os.path.join`, subsequences |
| `text.dfy` | `Text` | `str.strip`, `str.split(sep)`, `"sep".join`, `str.lower` on ASCII |
| `detector.dfy` | `Detector` | `ObjectDetector.predict` |
| `server.dfy` | `Server` | the `detect_objects` handler, as written and as intended |
| `batch.dfy` | `Batch` | the batch pipeline script |
| `frame_names.dfy` | `FrameNames` | `f"frame_{k:03d}.jpg"` and its inverse |
| `frames.dfy` | `Frames` | `extract_frames` |

Notes on what the code does:

- `predict` does not round the confidence or the corners.
- `predict` catches nothing: a failing decode, a failing model call, an empty result
  list or an unknown class index propagates.
- The serving threshold is the constant 0.35 and is not configurable.
- An undecodable upload is answered with 500, not 400 (see Findings).

## Model

| member | source | states |
|---|---|---|
| Common.Trunc | batch_process.py:58 | `int()` on a float truncates toward zero: the result is the integer next to the value on the side of zero, and 0 for every value strictly between -1 and 1 |
| Common.PathJoinInjective | batch_process.py:83 | two relative file names joined to the same output directory give the same path only if the names are equal, so distinct images never overwrite each other |
| Common.PathJoinShape | batch_process.py:43 | `os.path.join` on POSIX: an absolute name is the whole path; a relative name follows the directory, with exactly one `/` between them unless the directory is empty or already ends in `/` |
| Text.Strip | batch_process.py:34 | `strip()` removes exactly the leading and trailing whitespace: the result is a contiguous slice of the input, everything removed is whitespace, and the result neither starts nor ends with whitespace |
| Text.StripIdempotent | batch_process.py:34 | stripping an already stripped piece changes nothing |
| Text.StripIgnoresSurroundingSpace | batch_process.py:34 | whitespace added around a piece does not change what `strip()` returns for it |
| Text.Split | batch_process.py:34 | `split(",")` gives one piece more than there are commas, no piece contains a comma, and joining the pieces with commas restores the input |
| Text.SplitJoin | batch_process.py:34 | splitting comma-joined, comma-free pieces gives back exactly those pieces |
| Batch.AllowList | batch_process.py:34 | an allow-list exists exactly when `--classes` is given and non-empty; it has one entry per comma-separated piece, and each entry is comma-free and stripped |
| Batch.AllowListRoundTrip | batch_process.py:34 | class names passed comma-joined come back in order, each one stripped |
| Batch.Discover | batch_process.py:39 | a listed name is processed exactly when its lower-cased form ends in `.png`, `.jpeg` or `.jpg`, and the processed names keep listing order |
| Batch.DiscoverAppend | batch_process.py:39 | the filter decides entry by entry: the images of a concatenated listing are the images of each part, in order |
| Batch.TruncBox | batch_process.py:58 | each reported corner is the truncation toward zero of the model's corner |
| Batch.Filtered | batch_process.py:64-65 | a box survives the filter exactly when there is no allow-list, the list is empty, or its class is listed; survivors keep their order |
| Batch.FilteredAppend | batch_process.py:53-65 | the filter decides box by box: filtering two runs of boxes one after the other is filtering each, so every surviving box is kept once, with its multiplicity |
| Batch.ScanBoxes | batch_process.py:53-79 | the box loop of one image succeeds exactly when every box's class is in the class table, and then keeps exactly the filtered boxes; otherwise it raises the KeyError of the first box whose class is missing |
| Batch.ProcessImage | batch_process.py:42-88 | the pass works on the boxes of the first result of the model call on `input/<name>` at `--conf`. A model call that raises fails the pass, and so does an empty result list (the IndexError of `[0]`), before any box is read. Otherwise an unknown class fails the pass with the box loop's error. A pass that keeps a box fails at `cv2.imwrite` when the image could not be read; otherwise the image is kept. A pass that keeps nothing is skipped. A kept image has a non-empty entry under its own name, with the rounded summaries of the kept boxes. Its picture is the image read from disk, with one mark per reported box: that box's rectangle and a caption 10 pixels above its top-left corner |
| Batch.RunImages | batch_process.py:82-88 | an image is written exactly when a report entry is appended, and never otherwise: every state of the loop, including an aborted one, has as many written images as report entries, and no more than there are images |
| Batch.RunImagesSaves | batch_process.py:42-88 | when the loop body reports an image under its own name, the i-th report entry is what the body returned for a kept image, and its picture is saved at `output/<image name>` |
| Batch.RunImagesInOrder | batch_process.py:42-85 | report entries follow discovery order: their names are the discovered names with some left out, in order |
| Batch.RunImagesComplete | batch_process.py:42-88 | the loop fails exactly when some image's pass fails; when none fails, every kept image is reported |
| Batch.RunImagesStopsAtFirstFailure | batch_process.py:42-88 | a loop that fails stops at the first image whose pass raises, with that pass's error; what it has saved and reported by then is exactly what the loop over the images before it saves and reports |
| Batch.RunBatch | batch_process.py:31-93 | a completed run writes `results.json` in the output folder. It saves one file per report entry, at most one per discovered image, and reports exactly the kept images in discovery order. When the listing names each file once, so does the report. The run aborts exactly when some discovered image's pass raises. It then aborts with the error of the first such image in discovery order, and the files already saved are those of the kept images before it |
| Batch.ReportEntriesNonEmpty | batch_process.py:49-85 | every report entry names an image file, has at least one detection, and its saved picture draws exactly the reported boxes |
| Batch.ReportRespectsAllowList | batch_process.py:64-72 | with a non-empty `--classes`, every reported detection is of a listed class |
| Batch.NoAllowListKeepsEveryBox | batch_process.py:53-72 | without `--classes`, a reported image lists every box the model gave, in order, with class name, rounded confidence and truncated corners |
| Batch.NoAllowListReportsNonEmpty | batch_process.py:46-88 | without `--classes`, when the model call returns a result, the classes are known and the image is readable, an image is reported exactly when the model found at least one box |
| Detector.Normalise | app/detector.py:39-46 | the records are produced exactly when every box's class is in the class table; then there is one record per box in order, with the class name and the unrounded confidence and corners. Otherwise the error names the class index of the first unknown box |
| Detector.Predict | app/detector.py:17-47 | an undecodable image gives the (None, None) outcome, and a decoder that raises lets its error escape; neither calls the model. Otherwise the model is called exactly once at 0.35. The call raises exactly when the model raises, returns no result, or reports an unknown class, and the escaping exception is, in that order, the model's own, the IndexError of `results[0]` or the KeyError naming the first unknown class index. Otherwise the annotated image is the first result's plot and the records match its boxes one for one |
| Detector.PredictRespectsThreshold | app/detector.py:32 | if the runtime honours its threshold, every returned detection scores at least 0.35 |
| Server.DetectObjects | main.py:40-94 | a missing model is a 500 before anything else is looked at. A non-image content type is a 400 before the body is read or the model runs, and that is the only 400. Past both guards the model runs once iff the upload decodes. An undecodable upload is a 500. An exception escaping `predict` is a 500 whose detail is that very exception. Success happens exactly when `predict` produces records; then the response carries them with their count, a `.jpg` name and its URL, and exactly one file is written. A failure writes nothing |
| Server.DetectObjectsIntended | main.py:53-61 | the corrected handler answers 400 exactly for a bad content type or an undecodable upload, and 500 exactly for a missing model or an exception from `predict`; its successes are those of the handler as written |
| Server.UndecodableUploadIs500 | main.py:53-94 | an image upload that does not decode gets 500 from the handler as written and 400 from the corrected one |
| Server.HandlersAgreeElsewhere | main.py:47-94 | apart from the undecodable upload, both handlers give the same answer and the same effects |
| FrameNames.FrameName | extract_frames.py:32 | a frame name is `frame_`, the counter and `.jpg`. It is exactly 13 characters long iff the counter is below 1000, and from 100 on the counter starts with a nonzero digit, so zeros pad it only up to three digits |
| FrameNames.CounterRoundTrip | extract_frames.py:32 | the zero-padded counter reads back as the number it was made from |
| FrameNames.FrameNameRoundTrip | extract_frames.py:32 | parsing a frame name gives back its index |
| FrameNames.FrameNamesDistinct | extract_frames.py:32-34 | distinct save counts give distinct file names, so no saved frame overwrites another |
| Frames.FloorDiv | extract_frames.py:19 | `//` is floor division for either sign of divisor |
| Frames.Stride | extract_frames.py:19 | the interval is at least 1. With a positive target it is the floor of total / target when the total is at least the target, and 1 when the total is less than twice the target. With a negative target it is 1 when total >= target, and otherwise the floor of total / target |
| Frames.SampleLoop | extract_frames.py:21-38 | the k-th saved frame is frame k * interval of the stream, saved under the k-th name; the loop saves min(limit, number of multiples of the interval below the stream length) frames |
| Frames.ExtractFrames | extract_frames.py:5-41 | the folder is created iff it did not exist. An unopened video saves nothing, and a zero target raises before anything is saved. Otherwise the k-th save is frame k * interval written to `frame_{k:03d}.jpg` in the folder, and a positive target bounds the number of saves |

## Left out

- The detection model, `cv2.imdecode`, `cv2.imread`, `result.plot()`, `round(x, 2)` and `f"{x:.2f}"` are opaque. They are function parameters, and nothing about pixels, tensors or number formatting is modelled.
- The drawing colour, thickness, font and scale of the batch annotations are left out. The model keeps which rectangles and captions are drawn, and where.
- `cv2.imwrite` is assumed to succeed. Its boolean return value is ignored by the source as well.
- Reading the upload body is assumed to succeed, and a request without a content type is not modelled. The content type is always a string.
- The detail text of a 500 is `str(e)`. The model records which exception was caught, not its text.
- Batch.ProcessImage: drawing on the None that `cv2.imread` returns for an unreadable file is taken to draw nothing and raise nothing. OpenCV's Python binding accepts None as an empty image, and `cv2.rectangle` and `cv2.putText` clip to it. Such an image therefore fails at `cv2.imwrite`, which refuses an empty image, and only if the box loop keeps a box.
- The uuid4 file stem is a parameter. Its uniqueness is randomness outside the model.
- The FastAPI application is left out: routing, the static mount, `GET /`, the `uvicorn` entry point, thread scheduling and the console printing.
- `ObjectDetector.__init__` and the global model load are reduced to the boolean `loaded`.
- Directory effects are not modelled. The batch run starts with an empty output folder, which is what `rmtree` plus `makedirs` give. `os.listdir` is the `listing` parameter, in whatever order it returns.
- `json.dump` formatting of the report is left out; the report is the sequence of entries.
- The frame sampler's video capture is the sequence of frames read before the first failed read. `cap.isOpened()` is assumed to stay true inside the loop, and `cap.release()` is left out.
- The frame total is a parameter, already converted to an integer.
- The argument parsers of `batch_process.py` and `extract_frames.py`, their default values, and `local_test.py` are left out. `Args` carries whatever values were given.
- Which byte strings make `cv2.imdecode` raise rather than return None is left to the `decode` parameter. OpenCV refuses an empty buffer that way, and such an upload is a 500 from both handlers.
- Text.Lower: lower-cases ASCII letters only. No other character lower-cases to a character of `.png`, `.jpeg` or `.jpg`, so the extension test is unaffected.

## Findings

| source | as written | input that shows it | evidently intended | confidence | as-written member | corrected member |
|---|---|---|---|---|---|---|
| main.py:60-61 | the `HTTPException(400)` for an undecodable image is raised inside the `try` block, and `except Exception` (lines 92-94) turns it into a 500 | an upload with content type `image/png` whose non-empty bytes `cv2.imdecode` cannot decode (it returns None) | answer 400 "Invalid image file. Please upload a valid image." | high, not executed | Server.UndecodableUploadIs500 | Server.DetectObjectsIntended |

=== FILE: batch.dfy ===
/** The batch pipeline (batch_process.py): pick the image files of a directory, run
    the model on each, keep the boxes whose class is on the optional allow-list,
    draw and save the images that keep at least one box, and report them in one
    results.json. Any exception aborts the whole run before the report is written. */
module Batch {
  import opened Common
  import opened Text

  const ReportName := "results.json"

  /** The command line: --input, --output, --classes (absent is None), --conf. */
  datatype Args = Args(input: string, output: string, classes: Option<string>, conf: real)

  /** What one model(img_path, conf=...) call does: return its result list, each
      result holding the boxes found in one image, or raise. Unlike the call in
      Detector.Inference, this one takes a file path, and the script reads class
      names from the model's own table (`Env.names`) rather than from each result,
      so the two calls are modelled separately. */
  datatype ModelRun = Ran(results: seq<seq<RawBox>>) | RunRaised

  /** The opaque collaborators: the model call on a path at a threshold, its class
      table, cv2.imread, round(x, 2) and the text of f"{x:.2f}". */
  datatype Env<I> = Env(infer: (string, real) -> ModelRun, names: ClassNames,
                        imread: string -> Option<I>,
                        round2: real -> real, fixed2: real -> string)

  // ---------------------------------------------------------------- allow-list

  /** The parsed --classes value: None (no filtering) when the flag is absent or
      empty, otherwise the comma-separated pieces, each stripped of whitespace. */
  function AllowList(classes: Option<string>): (r: Option<seq<string>>)
    ensures r.Some? <==> classes.Some? && classes.value != ""
    ensures r.Some? ==> |r.value| == Count(classes.value, ',') + 1 >= 1
    ensures r.Some? ==> forall i :: 0 <= i < |r.value| ==>
      && ',' !in r.value[i]
      && Stripped(r.value[i])
  {
    if classes.None? || classes.value == "" then None
    else Some(StripEach(Split(classes.value, ',')))
  }

  /** Each comma-free piece stripped of its surrounding whitespace. */
  function StripEach(parts: seq<string>): (r: seq<string>)
    requires forall i :: 0 <= i < |parts| ==> ',' !in parts[i]
    ensures |r| == |parts|
    ensures forall i :: 0 <= i < |parts| ==> r[i] == Strip(parts[i]) && ',' !in r[i] && Stripped(r[i])
  {
    var r := seq(|parts|, i requires 0 <= i < |parts| => Strip(parts[i]));
    assert forall i :: 0 <= i < |parts| ==> ',' !in r[i] by {
      forall i | 0 <= i < |parts| ensures ',' !in r[i] {
        StripKeepsNoComma(parts[i]);
      }
    }
    r
  }

  /** Class names joined by commas come back one by one, each stripped of the
      whitespace around it. */
  lemma AllowListRoundTrip(pieces: seq<string>)
    requires |pieces| >= 1
    requires forall i :: 0 <= i < |pieces| ==> ',' !in pieces[i]
    requires Join(pieces, ',') != ""
    ensures AllowList(Some(Join(pieces, ','))) ==
            Some(seq(|pieces|, i requires 0 <= i < |pieces| => Strip(pieces[i])))
  {
    SplitJoin(pieces, ',');
  }

  /** Whether a detection of class `c` is kept: always when there is no allow-list
      or the list is empty, otherwise exactly when `c` is on the list. */
  predicate Passes(allow: Option<seq<string>>, c: string)
  {
    allow.None? || |allow.value| == 0 || c in allow.value
  }

  // ---------------------------------------------------------------- discovery

  predicate IsImageName(name: string)
  {
    var l := Lower(name);
    EndsWith(l, ".png") || EndsWith(l, ".jpeg") || EndsWith(l, ".jpg")
  }

  /** The directory entries whose lower-cased name ends in .png, .jpeg or .jpg, in
      listing order. */
  function Discover(listing: seq<string>): (images: seq<string>)
    ensures forall n :: n in images <==> n in listing && IsImageName(n)
    ensures IsSubsequence(images, listing)
  {
    if |listing| == 0 then []
    else
      var rest := Discover(listing[1..]);
      assert forall n :: n in listing <==> n == listing[0] || n in listing[1..];
      if IsImageName(listing[0]) then [listing[0]] + rest else rest
  }

  /** Discovery works entry by entry: the images of two listings are the images of
      each, one after the other. */
  lemma {:induction false} DiscoverAppend(a: seq<string>, b: seq<string>)
    ensures Discover(a + b) == Discover(a) + Discover(b)
    decreases |a|
  {
    if |a| == 0 {
      assert a + b == b;
    } else {
      assert (a + b)[0] == a[0];
      assert (a + b)[1..] == a[1..] + b;
      DiscoverAppend(a[1..], b);
    }
  }

  // ---------------------------------------------------------------- boxes

  /** Corners truncated to integer pixels: map(int, box.xyxy[0]). */
  datatype IntBox = IntBox(x1: int, y1: int, x2: int, y2: int)

  function TruncBox(c: Corners): (b: IntBox)
    ensures TruncatesTo(c.x1, b.x1) && TruncatesTo(c.y1, b.y1)
    ensures TruncatesTo(c.x2, b.x2) && TruncatesTo(c.y2, b.y2)
  {
    IntBox(Trunc(c.x1), Trunc(c.y1), Trunc(c.x2), Trunc(c.y2))
  }

  /** A box as the loop body reads it: class name, raw confidence, integer corners. */
  datatype Candidate = Candidate(className: string, conf: real, box: IntBox)

  predicate AllKnown(boxes: seq<RawBox>, names: ClassNames)
  {
    forall i :: 0 <= i < |boxes| ==> Known(boxes[i], names)
  }

  function ToCandidate(b: RawBox, names: ClassNames): Candidate
    requires Known(b, names)
  {
    Candidate(names[ClassId(b)], b.conf, TruncBox(b.xyxy))
  }

  /** Every box read, in order, when every class index is in the table. */
  function ReadAll(boxes: seq<RawBox>, names: ClassNames): (r: seq<Candidate>)
    requires AllKnown(boxes, names)
    ensures |r| == |boxes|
    ensures forall i :: 0 <= i < |boxes| ==> r[i] == ToCandidate(boxes[i], names)
  {
    seq(|boxes|, i requires 0 <= i < |boxes| => ToCandidate(boxes[i], names))
  }

  /** The candidates the allow-list keeps, in order. */
  function Filtered(cs: seq<Candidate>, allow: Option<seq<string>>): (r: seq<Candidate>)
    ensures forall c :: c in r <==> c in cs && Passes(allow, c.className)
    ensures IsSubsequence(r, cs)
    ensures !(allow.Some? && |allow.value| > 0) ==> r == cs
  {
    if |cs| == 0 then []
    else
      var rest := Filtered(cs[1..], allow);
      assert forall c :: c in cs <==> c == cs[0] || c in cs[1..];
      if Passes(allow, cs[0].className) then
        assert cs == [cs[0]] + cs[1..];
        [cs[0]] + rest
      else rest
  }

  /** The filter decides candidate by candidate: filtering two runs of candidates
      one after the other is filtering each. */
  lemma {:induction false} FilteredAppend(a: seq<Candidate>, b: seq<Candidate>,
                                          allow: Option<seq<string>>)
    ensures Filtered(a + b, allow) == Filtered(a, allow) + Filtered(b, allow)
    decreases |a|
  {
    if |a| == 0 {
      assert a + b == b;
    } else {
      assert (a + b)[0] == a[0];
      assert (a + b)[1..] == a[1..] + b;
      FilteredAppend(a[1..], b, allow);
    }
  }

  /** Why a run aborts. The first three mirror Detector.PredictError, but a run has
      no decoder that can raise, and only a run saves its images with cv2.imwrite. */
  datatype BatchError =
    | InferenceFailed        // the model call raised
    | NoResult               // [0] on an empty result list (IndexError)
    | UnknownClass(id: int)  // model.names[class_id] misses (KeyError)
    | SaveMissingImage       // cv2.imwrite of the None that imread returned

  /** Index of the first box whose class the table lacks, or |boxes| when every
      class is known. */
  function FirstUnknown(boxes: seq<RawBox>, names: ClassNames): (n: nat)
    ensures n <= |boxes|
    ensures n < |boxes| ==> !Known(boxes[n], names)
    ensures forall j :: 0 <= j < n ==> Known(boxes[j], names)
  {
    if |boxes| == 0 then 0
    else if !Known(boxes[0], names) then 0
    else
      var tail := boxes[1..];
      assert forall j :: 1 <= j < |boxes| ==> boxes[j] == tail[j - 1];
      1 + FirstUnknown(tail, names)
  }

  /** Reading and filtering the boxes of an image, one box at a time. */
  lemma ScanCons(boxes: seq<RawBox>, names: ClassNames, allow: Option<seq<string>>)
    requires |boxes| > 0 && Known(boxes[0], names)
    ensures AllKnown(boxes, names) <==> AllKnown(boxes[1..], names)
    ensures FirstUnknown(boxes, names) == 1 + FirstUnknown(boxes[1..], names)
    ensures AllKnown(boxes, names) ==>
      var c := ToCandidate(boxes[0], names);
      var rest := Filtered(ReadAll(boxes[1..], names), allow);
      Filtered(ReadAll(boxes, names), allow) == if Passes(allow, c.className) then [c] + rest else rest
  {
    var tail := boxes[1..];
    assert forall i :: 0 <= i < |tail| ==> tail[i] == boxes[i + 1];
    assert forall i :: 1 <= i < |boxes| ==> boxes[i] == tail[i - 1];
    if AllKnown(boxes, names) {
      var all := ReadAll(boxes, names);
      assert all[1..] == ReadAll(tail, names);
    }
  }

  /** The per-box loop of one image: read each box, skip it unless it passes the
      allow-list, keep it otherwise. Only reading the class name can raise. */
  function ScanBoxes(boxes: seq<RawBox>, names: ClassNames, allow: Option<seq<string>>)
    : (r: Result<seq<Candidate>, BatchError>)
    ensures r.Ok? <==> AllKnown(boxes, names)
    ensures r.Ok? ==> r.value == Filtered(ReadAll(boxes, names), allow)
    ensures r.Err? ==>
      var n := FirstUnknown(boxes, names);
      n < |boxes| && r.error == UnknownClass(ClassId(boxes[n]))
  {
    if |boxes| == 0 then Ok([])
    else if !Known(boxes[0], names) then Err(UnknownClass(ClassId(boxes[0])))
    else
      var c := ToCandidate(boxes[0], names);
      var tail := boxes[1..];
      ScanCons(boxes, names, allow);
      match ScanBoxes(tail, names, allow)
      case Err(e) => Err(e)
      case Ok(kept) => Ok(if Passes(allow, c.className) then [c] + kept else kept)
  }

  // ---------------------------------------------------------------- one image

  /** One report detection: {"class", "confidence": round(conf, 2), "box"}. */
  datatype Summary = Summary(className: string, confidence: real, box: IntBox)

  /** One report entry: {"image", "detections"}. */
  datatype Entry = Entry(image: string, detections: seq<Summary>)

  /** What is drawn on the image copy for one kept box: its rectangle, and its
      caption (class and confidence) 10 pixels above the top-left corner. */
  datatype Mark = Mark(box: IntBox, caption: string, captionX: int, captionY: int)

  datatype Canvas<I> = Canvas(base: I, marks: seq<Mark>)

  function Summaries(kept: seq<Candidate>, round2: real -> real): (r: seq<Summary>)
    ensures |r| == |kept|
    ensures forall k :: 0 <= k < |kept| ==>
      r[k] == Summary(kept[k].className, round2(kept[k].conf), kept[k].box)
  {
    seq(|kept|, k requires 0 <= k < |kept| =>
      Summary(kept[k].className, round2(kept[k].conf), kept[k].box))
  }

  function Marks(kept: seq<Candidate>, fixed2: real -> string): (r: seq<Mark>)
    ensures |r| == |kept|
    ensures forall k :: 0 <= k < |kept| ==>
      r[k] == Mark(kept[k].box, kept[k].className + " " + fixed2(kept[k].conf),
                   kept[k].box.x1, kept[k].box.y1 - 10)
  {
    seq(|kept|, k requires 0 <= k < |kept| =>
      Mark(kept[k].box, kept[k].className + " " + fixed2(kept[k].conf),
           kept[k].box.x1, kept[k].box.y1 - 10))
  }

  datatype ImageOutcome<I> =
    | Skipped                                   // nothing kept: no file, no entry
    | Kept(entry: Entry, picture: Canvas<I>)    // to be saved and reported
    | Failed(error: BatchError)

  /** model(img_path, conf=args.conf) for one image of the run. */
  function ModelCall<I>(args: Args, env: Env<I>, name: string): ModelRun
  {
    env.infer(PathJoin(args.input, name), args.conf)
  }

  /** One pass of the image loop: the model call and `[0]` of its result list, then
      the image read, then the box loop; the image is saved and reported when the
      loop keeps a box. Drawing on the None of an unreadable image draws nothing,
      and saving it raises. */
  function ProcessImage<I>(args: Args, env: Env<I>, name: string): (o: ImageOutcome<I>)
    // a model call that raises, or returns no result, fails the pass before any box is looked at
    ensures ModelCall(args, env, name).RunRaised? ==> o == Failed(InferenceFailed)
    ensures var run := ModelCall(args, env, name);
      run.Ran? && |run.results| == 0 ==> o == Failed(NoResult)
    // otherwise an unknown class fails the pass, and a kept box on an unreadable
    // image fails it at the save; an image keeping no box is skipped
    ensures var run := ModelCall(args, env, name);
      run.Ran? && |run.results| > 0 ==>
        var r := ScanBoxes(run.results[0], env.names, AllowList(args.classes));
        var readable := env.imread(PathJoin(args.input, name)).Some?;
        && (o.Failed? <==> r.Err? || (r.value != [] && !readable))
        && (r.Err? ==> o == Failed(r.error))
        && (r.Ok? && r.value != [] && !readable ==> o == Failed(SaveMissingImage))
        && (o.Kept? <==> r.Ok? && r.value != [] && readable)
        && (o.Skipped? <==> r == Ok([]))
    // a kept image: its entry and its drawing
    ensures o.Kept? ==>
      && var run := ModelCall(args, env, name);
      && run.Ran? && |run.results| > 0
      && var boxes := run.results[0];
      && AllKnown(boxes, env.names)
      && var kept := Filtered(ReadAll(boxes, env.names), AllowList(args.classes));
      && o.entry == Entry(name, Summaries(kept, env.round2))
      && |o.entry.detections| > 0
      && env.imread(PathJoin(args.input, name)).Some?
      && o.picture == Canvas(env.imread(PathJoin(args.input, name)).value,
                             Marks(kept, env.fixed2))
    ensures o.Kept? ==>
      && |o.picture.marks| == |o.entry.detections|
      && forall k :: 0 <= k < |o.entry.detections| ==>
           o.picture.marks[k].box == o.entry.detections[k].box
  {
    match ModelCall(args, env, name)
    case RunRaised => Failed(InferenceFailed)
    case Ran(results) =>
      if |results| == 0 then Failed(NoResult)
      else
        var image := env.imread(PathJoin(args.input, name));
        match ScanBoxes(results[0], env.names, AllowList(args.classes))
        case Err(e) => Failed(e)
        case Ok(kept) =>
          if |kept| == 0 then Skipped
          else if image.None? then Failed(SaveMissingImage)
          else Kept(Entry(name, Summaries(kept, env.round2)), Canvas(image.value, Marks(kept, env.fixed2)))
  }

  // ---------------------------------------------------------------- the run

  /** One cv2.imwrite of an annotated image. */
  datatype SavedImage<I> = SavedImage(path: string, picture: Canvas<I>)

  /** The images saved and the entries collected so far, and the error that
      stopped the loop, if any. */
  datatype Progress<I> = Progress(saved: seq<SavedImage<I>>, entries: seq<Entry>,
                                  failure: Option<BatchError>)

  function EntryNames(entries: seq<Entry>): (r: seq<string>)
    ensures |r| == |entries| && forall i :: 0 <= i < |entries| ==> r[i] == entries[i].image
  {
    seq(|entries|, i requires 0 <= i < |entries| => entries[i].image)
  }

  /** The image loop over the discovered names, `step` being one pass of its body:
      a kept image is saved under `output` and reported, and the first failure ends
      the loop. */
  function RunImages<I>(step: string -> ImageOutcome<I>, output: string, images: seq<string>)
    : (p: Progress<I>)
    ensures |p.saved| == |p.entries| <= |images|
  {
    if |images| == 0 then Progress([], [], None)
    else
      var name := images[0];
      match step(name)
      case Failed(e) => Progress([], [], Some(e))
      case Skipped => RunImages(step, output, images[1..])
      case Kept(entry, picture) =>
        var p := RunImages(step, output, images[1..]);
        Progress([SavedImage(PathJoin(output, name), picture)] + p.saved, [entry] + p.entries,
                 p.failure)
  }

  /** Each report entry is what the loop body returned for a kept image, and its
      picture is saved in `output` under the image's own name. */
  ghost predicate SavedAsReported<I>(step: string -> ImageOutcome<I>, output: string, p: Progress<I>)
  {
    && |p.saved| == |p.entries|
    && forall i :: 0 <= i < |p.entries| ==>
         && p.saved[i].path == PathJoin(output, p.entries[i].image)
         && step(p.entries[i].image) == Kept(p.entries[i], p.saved[i].picture)
  }

  /** The loop saves and reports exactly what its body kept, given that the body
      reports an image under its own name. */
  lemma {:induction false} RunImagesSaves<I>(step: string -> ImageOutcome<I>, output: string,
                                             images: seq<string>)
    requires forall n :: step(n).Kept? ==> step(n).entry.image == n
    ensures SavedAsReported(step, output, RunImages(step, output, images))
    decreases |images|
  {
    if |images| > 0 {
      var name := images[0];
      RunImagesSaves(step, output, images[1..]);
      var q := RunImages(step, output, images[1..]);
      match step(name)
      case Failed(_) =>
      case Skipped =>
        assert RunImages(step, output, images) == q;
      case Kept(entry, picture) =>
        var p := RunImages(step, output, images);
        assert p.entries == [entry] + q.entries;
        assert p.saved == [SavedImage(PathJoin(output, name), picture)] + q.saved;
        assert entry.image == name;
        forall i | 0 <= i < |p.entries|
          ensures p.saved[i].path == PathJoin(output, p.entries[i].image)
          ensures step(p.entries[i].image) == Kept(p.entries[i], p.saved[i].picture)
        {
          if i > 0 {
            assert p.entries[i] == q.entries[i - 1] && p.saved[i] == q.saved[i - 1];
          }
        }
    }
  }

  /** The report lists images in discovery order, taking each position of the
      list at most once. */
  lemma {:induction false} RunImagesInOrder<I>(step: string -> ImageOutcome<I>, output: string,
                                               images: seq<string>)
    requires forall n :: step(n).Kept? ==> step(n).entry.image == n
    ensures IsSubsequence(EntryNames(RunImages(step, output, images).entries), images)
    decreases |images|
  {
    if |images| > 0 {
      var name := images[0];
      var p := RunImages(step, output, images[1..]);
      RunImagesInOrder(step, output, images[1..]);
      if step(name).Kept? {
        var entries := RunImages(step, output, images).entries;
        assert entries == [step(name).entry] + p.entries;
        assert EntryNames(entries)[0] == name;
        assert EntryNames(entries)[1..] == EntryNames(p.entries);
      }
    }
  }

  /** The loop fails exactly when some image fails; when it does not, every image
      the step keeps is reported. */
  lemma {:induction false} RunImagesComplete<I>(step: string -> ImageOutcome<I>, output: string,
                                                images: seq<string>)
    requires forall n :: step(n).Kept? ==> step(n).entry.image == n
    ensures var p := RunImages(step, output, images);
      && (p.failure.Some? <==> exists n :: n in images && step(n).Failed?)
      && (p.failure.None? ==>
            forall n :: (n in images && step(n).Kept?) ==> n in EntryNames(p.entries))
    decreases |images|
  {
    if |images| > 0 {
      var name := images[0];
      var rest := images[1..];
      assert forall n :: n in images <==> n == name || n in rest;
      RunImagesComplete(step, output, rest);
      var p := RunImages(step, output, rest);
      if step(name).Kept? {
        var entries := RunImages(step, output, images).entries;
        assert entries == [step(name).entry] + p.entries;
        assert forall n :: n in EntryNames(p.entries) ==> n in EntryNames(entries) by {
          forall n | n in EntryNames(p.entries) ensures n in EntryNames(entries) {
            var i :| 0 <= i < |p.entries| && EntryNames(p.entries)[i] == n;
            assert EntryNames(entries)[i + 1] == n;
          }
        }
        assert EntryNames(entries)[0] == name;
      }
    }
  }

  /** What a pass that does not fail adds in front of the rest of the loop. */
  function Extend<I>(o: ImageOutcome<I>, output: string, name: string, p: Progress<I>): Progress<I>
  {
    match o
    case Kept(entry, picture) =>
      Progress([SavedImage(PathJoin(output, name), picture)] + p.saved, [entry] + p.entries, p.failure)
    case _ => p
  }

  lemma RunImagesUnfold<I>(step: string -> ImageOutcome<I>, output: string, images: seq<string>)
    requires |images| > 0 && !step(images[0]).Failed?
    ensures RunImages(step, output, images)
         == Extend(step(images[0]), output, images[0], RunImages(step, output, images[1..]))
  {
  }

  /** The same unfolding, for the loop over the first j + 1 images. */
  lemma RunImagesPrefixUnfold<I>(step: string -> ImageOutcome<I>, output: string,
                                 images: seq<string>, j: nat)
    requires j < |images| && !step(images[0]).Failed?
    ensures RunImages(step, output, images[..j + 1])
         == Extend(step(images[0]), output, images[0], RunImages(step, output, images[1..][..j]))
  {
    var prefix := images[..j + 1];
    assert prefix[0] == images[0];
    assert prefix[1..] == images[1..][..j];
    RunImagesUnfold(step, output, prefix);
  }

  /** Image j is the first whose pass fails, with error e, and the loop over the
      images before it ends with what `p` saved and reported. */
  ghost predicate FirstFailureAt<I>(step: string -> ImageOutcome<I>, output: string,
                                    images: seq<string>, j: int, e: BatchError, p: Progress<I>)
  {
    && 0 <= j < |images|
    && step(images[j]) == Failed(e)
    && (forall i :: 0 <= i < j ==> !step(images[i]).Failed?)
    && RunImages(step, output, images[..j]) == Progress(p.saved, p.entries, None)
  }

  /** The loop stops at the first image whose pass fails, with that pass's error,
      and by then it has saved and reported what the images before it kept. */
  lemma {:induction false} RunImagesStopsAtFirstFailure<I>(step: string -> ImageOutcome<I>,
                                                           output: string, images: seq<string>)
    ensures var p := RunImages(step, output, images);
      p.failure.Some? ==> exists j :: FirstFailureAt(step, output, images, j, p.failure.value, p)
    decreases |images|
  {
    var p := RunImages(step, output, images);
    if |images| > 0 && p.failure.Some? {
      var name := images[0];
      var rest := images[1..];
      if step(name).Failed? {
        assert images[..0] == [];
        assert FirstFailureAt(step, output, images, 0, p.failure.value, p);
      } else {
        RunImagesUnfold(step, output, images);
        var q := RunImages(step, output, rest);
        assert p == Extend(step(name), output, name, q);
        RunImagesStopsAtFirstFailure(step, output, rest);
        var j :| FirstFailureAt(step, output, rest, j, q.failure.value, q);
        RunImagesPrefixUnfold(step, output, images, j);
        assert RunImages(step, output, images[..j + 1]) == Progress(p.saved, p.entries, None);
        assert images[j + 1] == rest[j];
        forall i | 0 <= i < j + 1 ensures !step(images[i]).Failed? {
          if i > 0 {
            assert images[i] == rest[i - 1];
          }
        }
        assert FirstFailureAt(step, output, images, j + 1, p.failure.value, p);
      }
    }
  }

  /** Names taken in order from the discovered images repeat none when the
      listing repeats none. */
  lemma DistinctThroughDiscovery(names: seq<string>, listing: seq<string>)
    requires IsSubsequence(names, Discover(listing))
    ensures NoDuplicates(listing) ==> NoDuplicates(names)
  {
    if NoDuplicates(listing) {
      SubsequenceNoDuplicates(Discover(listing), listing);
      SubsequenceNoDuplicates(names, Discover(listing));
    }
  }

  /** How a run ends: the report written to results.json, or an uncaught exception. */
  datatype BatchReport<I> =
    | Completed(saved: seq<SavedImage<I>>, reportPath: string, report: seq<Entry>)
    | Aborted(saved: seq<SavedImage<I>>, error: BatchError)

  /** The body of the image loop as a function of the image name. */
  function Pass<I>(args: Args, env: Env<I>): string -> ImageOutcome<I>
  {
    n => ProcessImage(args, env, n)
  }

  /** The whole script after the output directory has been emptied: `listing` is
      os.listdir(args.input). */
  function RunBatch<I>(args: Args, listing: seq<string>, env: Env<I>): (r: BatchReport<I>)
    ensures r.Completed? ==> r.reportPath == PathJoin(args.output, ReportName)
    ensures |r.saved| <= |Discover(listing)|
    ensures r.Completed? ==> |r.saved| == |r.report|
    ensures r.Completed? ==> IsSubsequence(EntryNames(r.report), Discover(listing))
    // a directory listing names each file once, and so does the report
    ensures r.Completed? && NoDuplicates(listing) ==> NoDuplicates(EntryNames(r.report))
    ensures r.Completed? ==> forall i :: 0 <= i < |r.report| ==>
      && ProcessImage(args, env, r.report[i].image) == Kept(r.report[i], r.saved[i].picture)
      && r.saved[i].path == PathJoin(args.output, r.report[i].image)
    ensures r.Completed? ==>
      forall n :: (n in Discover(listing) && ProcessImage(args, env, n).Kept?)
                  ==> n in EntryNames(r.report)
    ensures r.Aborted? <==> exists n :: n in Discover(listing) && ProcessImage(args, env, n).Failed?
    // an abort comes from the first failing image, after the kept images before it were saved
    ensures r.Aborted? ==>
      var images := Discover(listing);
      exists j :: 0 <= j < |images|
        && ProcessImage(args, env, images[j]) == Failed(r.error)
        && (forall i :: 0 <= i < j ==> !ProcessImage(args, env, images[i]).Failed?)
        && r.saved == RunImages(Pass(args, env), args.output, images[..j]).saved
  {
    var images := Discover(listing);
    var step := Pass(args, env);
    var p := RunImages(step, args.output, images);
    RunImagesSaves(step, args.output, images);
    RunImagesInOrder(step, args.output, images);
    RunImagesComplete(step, args.output, images);
    RunImagesStopsAtFirstFailure(step, args.output, images);
    SubsequenceNoLonger(EntryNames(p.entries), images);
    DistinctThroughDiscovery(EntryNames(p.entries), listing);
    match p.failure
    case Some(e) => Aborted(p.saved, e)
    case None => Completed(p.saved, PathJoin(args.output, ReportName), p.entries)
  }

  /** Every report entry names a discovered image with at least one detection, and
      its saved picture is drawn from exactly the reported boxes. */
  lemma ReportEntriesNonEmpty<I>(args: Args, listing: seq<string>, env: Env<I>)
    ensures var r := RunBatch(args, listing, env);
      r.Completed? ==> forall i :: 0 <= i < |r.report| ==>
        && IsImageName(r.report[i].image)
        && |r.report[i].detections| > 0
        && |r.saved[i].picture.marks| == |r.report[i].detections|
        && forall k :: 0 <= k < |r.report[i].detections| ==>
             r.saved[i].picture.marks[k].box == r.report[i].detections[k].box
  {
    var r := RunBatch(args, listing, env);
    if r.Completed? {
      var names := EntryNames(r.report);
      var images := Discover(listing);
      SubsequenceNoLonger(names, images);
      forall i | 0 <= i < |r.report|
        ensures IsImageName(r.report[i].image)
        ensures |r.report[i].detections| > 0
        ensures |r.saved[i].picture.marks| == |r.report[i].detections|
        ensures forall k :: 0 <= k < |r.report[i].detections| ==>
                  r.saved[i].picture.marks[k].box == r.report[i].detections[k].box
      {
        assert names[i] in names;
        assert ProcessImage(args, env, r.report[i].image) == Kept(r.report[i], r.saved[i].picture);
      }
    }
  }

  /** With an allow-list, every reported detection is of a listed class. */
  lemma ReportRespectsAllowList<I>(args: Args, listing: seq<string>, env: Env<I>)
    requires args.classes.Some? && args.classes.value != ""
    ensures var r := RunBatch(args, listing, env);
      r.Completed? ==>
        forall i, k :: (0 <= i < |r.report| && 0 <= k < |r.report[i].detections|)
          ==> r.report[i].detections[k].className in AllowList(args.classes).value
  {
    var r := RunBatch(args, listing, env);
    var allow := AllowList(args.classes);
    if r.Completed? {
      forall i, k | 0 <= i < |r.report| && 0 <= k < |r.report[i].detections|
        ensures r.report[i].detections[k].className in allow.value
      {
        var e := r.report[i];
        var boxes := ModelCall(args, env, e.image).results[0];
        var kept := Filtered(ReadAll(boxes, env.names), allow);
        assert e.detections == Summaries(kept, env.round2);
        assert kept[k] in kept;
      }
    }
  }

  /** Without an allow-list, a kept image reports every box the model gave, in the
      model's order, with its class name, rounded confidence and truncated corners. */
  lemma NoAllowListKeepsEveryBox<I>(args: Args, env: Env<I>, name: string)
    requires args.classes.None? || args.classes.value == ""
    ensures var o := ProcessImage(args, env, name);
      o.Kept? ==>
        && var run := ModelCall(args, env, name);
        && run.Ran? && |run.results| > 0
        && var boxes := run.results[0];
        && |o.entry.detections| == |boxes|
        && forall i :: 0 <= i < |boxes| ==>
             && Known(boxes[i], env.names)
             && o.entry.detections[i] == Summary(env.names[ClassId(boxes[i])],
                                                 env.round2(boxes[i].conf),
                                                 TruncBox(boxes[i].xyxy))
  {
  }

  /** Without an allow-list, an image is reported exactly when the model found
      something in it (given that the model call returns a result, and the class
      table and the image file are sound). */
  lemma NoAllowListReportsNonEmpty<I>(args: Args, env: Env<I>, name: string)
    requires args.classes.None? || args.classes.value == ""
    requires ModelCall(args, env, name).Ran? && |ModelCall(args, env, name).results| > 0
    requires AllKnown(ModelCall(args, env, name).results[0], env.names)
    requires env.imread(PathJoin(args.input, name)).Some?
    ensures ProcessImage(args, env, name).Kept? <==> |ModelCall(args, env, name).results[0]| > 0
    ensures ProcessImage(args, env, name).Skipped? <==> |ModelCall(args, env, name).results[0]| == 0
  {
  }
}

=== FILE: common.dfy ===
/** Shared vocabulary of the detection service: optional values, error results,
    bytes, the raw output of the opaque detection model, Python's int() on floats,
    and POSIX path joining. */
module Common {

  datatype Option<+T> = None | Some(value: T)

  datatype Result<+T, +E> = Ok(value: T) | Err(error: E)

  newtype byte = x: int | 0 <= x < 256

  /** The first row of a box's xyxy tensor: corners (x1, y1, x2, y2) in pixel space. */
  datatype Corners = Corners(x1: real, y1: real, x2: real, y2: real)

  /** One raw detection as the model runtime reports it; `cls` is the class index
      as the float the tensor stores. */
  datatype RawBox = RawBox(cls: real, conf: real, xyxy: Corners)

  /** The runtime's class-index to label table (a Python dict). */
  type ClassNames = map<int, string>

  /** `n` is what Python's int() gives for `x`: the integer next to `x` toward zero. */
  ghost predicate TruncatesTo(x: real, n: int)
  {
    if x >= 0.0 then n as real <= x < n as real + 1.0
    else n as real - 1.0 < x <= n as real
  }

  /** Python int() on a float: truncation toward zero. */
  function Trunc(x: real): (n: int)
    ensures TruncatesTo(x, n)
    ensures -1.0 < x < 1.0 ==> n == 0
  {
    if x >= 0.0 then x.Floor else -((-x).Floor)
  }

  /** The class index a box names: int(box.cls). */
  function ClassId(b: RawBox): int
  {
    Trunc(b.cls)
  }

  /** The class table has an entry for the box's class index. */
  predicate Known(b: RawBox, names: ClassNames)
  {
    ClassId(b) in names
  }

  predicate StartsWith(s: string, prefix: string)
  {
    |prefix| <= |s| && s[..|prefix|] == prefix
  }

  predicate EndsWith(s: string, suffix: string)
  {
    |suffix| <= |s| && s[|s| - |suffix|..] == suffix
  }

  /** os.path.join(dir, name) on POSIX: an absolute `name` replaces `dir`;
      otherwise exactly one '/' separates them unless `dir` is empty or already ends in '/'. */
  function PathJoin(dir: string, name: string): string
  {
    if StartsWith(name, "/") then name
    else if dir == "" || EndsWith(dir, "/") then dir + name
    else dir + "/" + name
  }

  /** A relative name is appended to the directory, with a single '/' between them
      unless the directory is empty; an absolute name is the whole path. */
  lemma PathJoinShape(dir: string, name: string)
    ensures var p := PathJoin(dir, name);
      && (StartsWith(name, "/") ==> p == name)
      && (!StartsWith(name, "/") ==>
            && StartsWith(p, dir) && EndsWith(p, name)
            && |dir| + |name| <= |p| <= |dir| + 1 + |name|
            && (|p| == |dir| + |name| <==> dir == "" || EndsWith(dir, "/"))
            && (dir != "" ==> p[|p| - |name| - 1] == '/'))
  {
  }

  /** Joining one directory with two relative names gives the same path only for the same name. */
  lemma PathJoinInjective(dir: string, a: string, b: string)
    requires !StartsWith(a, "/") && !StartsWith(b, "/")
    requires PathJoin(dir, a) == PathJoin(dir, b)
    ensures a == b
  {
    var pa := PathJoin(dir, a);
    if dir == "" || EndsWith(dir, "/") {
      assert pa == dir + a && pa == dir + b;
      assert a == pa[|dir|..] == b;
    } else {
      assert pa == dir + "/" + a && pa == dir + "/" + b;
      assert a == pa[|dir| + 1..] == b;
    }
  }

  /** `a` occurs in `b` in order, possibly with gaps. */
  predicate IsSubsequence<T(==)>(a: seq<T>, b: seq<T>)
    decreases |b|
  {
    |a| == 0
    || (|b| > 0 && (IsSubsequence(a, b[1..]) || (a[0] == b[0] && IsSubsequence(a[1..], b[1..]))))
  }

  lemma {:induction false} SubsequenceNoLonger<T>(a: seq<T>, b: seq<T>)
    requires IsSubsequence(a, b)
    ensures |a| <= |b|
    ensures forall x :: x in a ==> x in b
    decreases |b|
  {
    if |a| == 0 {
    } else if IsSubsequence(a, b[1..]) {
      SubsequenceNoLonger(a, b[1..]);
    } else {
      SubsequenceNoLonger(a[1..], b[1..]);
      assert forall x :: x in a ==> x == a[0] || x in a[1..];
    }
  }

  /** No element occurs twice. */
  predicate NoDuplicates<T(==)>(s: seq<T>)
  {
    forall i, j :: 0 <= i < j < |s| ==> s[i] != s[j]
  }

  /** Taking elements in order from a sequence without repeats cannot repeat one. */
  lemma {:induction false} SubsequenceNoDuplicates<T>(a: seq<T>, b: seq<T>)
    requires IsSubsequence(a, b) && NoDuplicates(b)
    ensures NoDuplicates(a)
    decreases |b|
  {
    if |a| > 0 {
      assert NoDuplicates(b[1..]);
      if IsSubsequence(a, b[1..]) {
        SubsequenceNoDuplicates(a, b[1..]);
      } else {
        SubsequenceNoDuplicates(a[1..], b[1..]);
        SubsequenceNoLonger(a[1..], b[1..]);
        assert b[0] !in b[1..];
        forall j | 0 < j < |a| ensures a[0] != a[j] {
          assert a[j] == a[1..][j - 1];
        }
      }
    }
  }
}

=== FILE: detector.dfy ===
/** ObjectDetector.predict: decode the uploaded bytes, run the model once at the fixed
    threshold, and turn every raw box of the first result into a public detection
    record, in the model's order and without rounding. Nothing is caught here: a
    failing decode, a failing model call, an empty result list or an unknown class index propagates. */
module Detector {
  import opened Common

  /** The confidence threshold passed to every model call (hard-coded, not configurable). */
  const Threshold: real := 0.35

  /** One element of the list model.predict returns: the boxes, the runtime's
      class-name table, and the image result.plot() renders. */
  datatype ModelResult<I> = ModelResult(boxes: seq<RawBox>, names: ClassNames, plotted: I)

  /** What one model.predict(img, conf) call does: return a result list, or raise. */
  datatype Inference<I> = Returned(results: seq<ModelResult<I>>) | InferenceRaised

  /** The public record: {"class", "confidence", "bbox"}. */
  datatype Detection = Detection(className: string, confidence: real, bbox: Corners)

  /** What cv2.imdecode makes of the uploaded bytes: an image, None for bytes it
      cannot decode, or a raised cv2.error (OpenCV refuses an empty buffer that way). */
  datatype Decoding<I> = Image(image: I) | NotAnImage | DecodeRaised

  /** The exceptions predict lets escape. */
  datatype PredictError =
    | DecodeFailed           // cv2.imdecode itself raised
    | InferenceFailed        // the model call itself raised
    | NoResult               // results[0] on an empty list (IndexError)
    | UnknownClass(id: int)  // result.names[int(box.cls)] misses (KeyError)

  datatype PredictOutcome<I> =
    | Undecodable                                       // the (None, None) return
    | Predicted(annotated: I, detections: seq<Detection>)
    | Raised(error: PredictError)

  /** The outcome together with the thresholds of the model calls made on the way. */
  datatype Prediction<I> = Prediction(modelCalls: seq<real>, outcome: PredictOutcome<I>)

  /** The record one known box becomes. */
  function ToDetection(b: RawBox, names: ClassNames): Detection
    requires Known(b, names)
  {
    Detection(names[ClassId(b)], b.conf, b.xyxy)
  }

  /** The detections loop: one record per box in order, stopping with the class index
      of the first box whose class the table lacks. */
  function Normalise(boxes: seq<RawBox>, names: ClassNames): (r: Result<seq<Detection>, int>)
    ensures r.Ok? <==> forall i :: 0 <= i < |boxes| ==> Known(boxes[i], names)
    ensures r.Ok? ==> |r.value| == |boxes|
    ensures r.Ok? ==> forall i :: 0 <= i < |boxes| ==>
      r.value[i] == ToDetection(boxes[i], names)
    ensures r.Err? ==>
      exists i :: (0 <= i < |boxes| && !Known(boxes[i], names) && r.error == ClassId(boxes[i])
                   && forall j :: 0 <= j < i ==> Known(boxes[j], names))
  {
    if |boxes| == 0 then Ok([])
    else if !Known(boxes[0], names) then Err(ClassId(boxes[0]))
    else
      match Normalise(boxes[1..], names)
      case Ok(rest) =>
        assert forall i :: 1 <= i < |boxes| ==> boxes[i] == boxes[1..][i - 1];
        Ok([ToDetection(boxes[0], names)] + rest)
      case Err(id) =>
        assert forall i :: 0 <= i < |boxes| - 1 ==> boxes[1..][i] == boxes[i + 1];
        Err(id)
  }

  /** predict(image_bytes), with decoding already applied (`decoded`) and the model
      as the function `infer`. */
  function Predict<I>(decoded: Decoding<I>, infer: (I, real) -> Inference<I>): (p: Prediction<I>)
    ensures decoded.NotAnImage? <==> p.outcome.Undecodable?
    ensures !decoded.Image? ==> p.modelCalls == []
    ensures decoded.Image? ==> p.modelCalls == [Threshold]
    // which exception escapes: the decoder's, the model's, the IndexError of an empty
    // result list, or the KeyError of the first unknown class
    ensures decoded.DecodeRaised? ==> p.outcome == Raised(DecodeFailed)
    ensures decoded.Image? && infer(decoded.image, Threshold).InferenceRaised? ==>
      p.outcome == Raised(InferenceFailed)
    ensures decoded.Image? && infer(decoded.image, Threshold).Returned?
            && |infer(decoded.image, Threshold).results| == 0 ==>
      p.outcome == Raised(NoResult)
    ensures decoded.Image? && infer(decoded.image, Threshold).Returned?
            && |infer(decoded.image, Threshold).results| > 0 ==>
      var first := infer(decoded.image, Threshold).results[0];
      Normalise(first.boxes, first.names).Err? ==>
        p.outcome == Raised(UnknownClass(Normalise(first.boxes, first.names).error))
    ensures p.outcome.Raised? <==>
      decoded.DecodeRaised? ||
      (decoded.Image? &&
       (infer(decoded.image, Threshold).InferenceRaised?
        || |infer(decoded.image, Threshold).results| == 0
        || Normalise(infer(decoded.image, Threshold).results[0].boxes,
                     infer(decoded.image, Threshold).results[0].names).Err?))
    ensures p.outcome.Predicted? ==>
      && decoded.Image?
      && var first := infer(decoded.image, Threshold).results[0];
      && p.outcome.annotated == first.plotted
      && |p.outcome.detections| == |first.boxes|
      && forall i :: 0 <= i < |first.boxes| ==>
           && Known(first.boxes[i], first.names)
           && p.outcome.detections[i].className == first.names[ClassId(first.boxes[i])]
           && p.outcome.detections[i].confidence == first.boxes[i].conf
           && p.outcome.detections[i].bbox == first.boxes[i].xyxy
  {
    match decoded
    case DecodeRaised => Prediction([], Raised(DecodeFailed))
    case NotAnImage => Prediction([], Undecodable)
    case Image(img) =>
      match infer(img, Threshold)
      case InferenceRaised => Prediction([Threshold], Raised(InferenceFailed))
      case Returned(results) =>
        if |results| == 0 then Prediction([Threshold], Raised(NoResult))
        else
          var first := results[0];
          match Normalise(first.boxes, first.names)
          case Err(id) => Prediction([Threshold], Raised(UnknownClass(id)))
          case Ok(dets) => Prediction([Threshold], Predicted(first.plotted, dets))
  }

  /** If the runtime honours the threshold it is given, every returned detection
      scores at least 0.35. */
  lemma PredictRespectsThreshold<I>(decoded: Decoding<I>, infer: (I, real) -> Inference<I>)
    requires forall img: I, t: real, k, i ::
      infer(img, t).Returned? && 0 <= k < |infer(img, t).results|
      && 0 <= i < |infer(img, t).results[k].boxes|
      ==> infer(img, t).results[k].boxes[i].conf >= t
    ensures var p := Predict(decoded, infer);
      p.outcome.Predicted? ==>
        forall d :: d in p.outcome.detections ==> d.confidence >= Threshold
  {
    var p := Predict(decoded, infer);
    if p.outcome.Predicted? {
      var first := infer(decoded.image, Threshold).results[0];
      forall d | d in p.outcome.detections ensures d.confidence >= Threshold {
        var i :| 0 <= i < |p.outcome.detections| && p.outcome.detections[i] == d;
        assert first.boxes[i].conf >= Threshold;
      }
    }
  }
}

=== FILE: frame_names.dfy ===
/** File names of extracted frames: f"frame_{k:03d}.jpg", i.e. the decimal digits
    of k, left-padded with zeros to at least three characters. */
module FrameNames {
  import opened Common

  predicate IsDigit(c: char)
  {
    '0' <= c <= '9'
  }

  predicate AllDigits(s: string)
  {
    forall i :: 0 <= i < |s| ==> IsDigit(s[i])
  }

  function Zeros(z: nat): (s: string)
    ensures |s| == z && forall i :: 0 <= i < z ==> s[i] == '0'
  {
    seq(z, _ => '0')
  }

  function DigitChar(d: nat): (c: char)
    requires d < 10
    ensures IsDigit(c)
  {
    ('0' as int + d) as char
  }

  function DigitValue(c: char): (d: nat)
    requires IsDigit(c)
    ensures d < 10 && DigitChar(d) == c
  {
    c as int - '0' as int
  }

  /** The value of a string of decimal digits (int(s) for such a string). */
  function Value(s: string): nat
    requires AllDigits(s)
  {
    if |s| == 0 then 0 else 10 * Value(s[..|s| - 1]) + DigitValue(s[|s| - 1])
  }

  /** str(n): the shortest decimal spelling of n. */
  function Decimal(n: nat): (s: string)
    ensures |s| >= 1
    ensures AllDigits(s)
    ensures s[0] == '0' ==> n == 0
    ensures n < 10 <==> |s| == 1
    ensures 10 <= n < 100 <==> |s| == 2
    ensures 100 <= n < 1000 <==> |s| == 3
  {
    if n < 10 then [DigitChar(n)] else Decimal(n / 10) + [DigitChar(n % 10)]
  }

  /** `s` with '0' characters prepended up to `width` characters. */
  function PadZeros(s: string, width: nat): (t: string)
    ensures |t| == if |s| >= width then |s| else width
    ensures t[|t| - |s|..] == s
    ensures forall i :: 0 <= i < |t| - |s| ==> t[i] == '0'
  {
    if |s| >= width then s else Zeros(width - |s|) + s
  }

  /** The digit part of the name: f"{k:03d}". */
  function Counter(k: nat): (c: string)
    ensures |c| >= 3
    ensures k < 1000 <==> |c| == 3
    ensures k >= 100 ==> c[0] != '0'
  {
    var d := Decimal(k);
    assert k >= 1000 ==> |d| >= 4;
    PadZeros(d, 3)
  }

  const NamePrefix := "frame_"
  const NameSuffix := ".jpg"

  /** The name of the k-th saved frame. */
  function FrameName(k: nat): (name: string)
    ensures |name| >= 13
    ensures k < 1000 <==> |name| == 13
    ensures name[..6] == NamePrefix && name[|name| - 4..] == NameSuffix
    // zeros pad the counter only up to three digits
    ensures k >= 100 ==> name[6] != '0'
  {
    var c := Counter(k);
    var name := NamePrefix + c + NameSuffix;
    assert name[..6] == NamePrefix;
    assert name[|name| - 4..] == NameSuffix;
    name
  }

  lemma {:induction false} DecimalRoundTrip(n: nat)
    ensures Value(Decimal(n)) == n
    decreases n
  {
    if n >= 10 {
      var s := Decimal(n);
      DecimalRoundTrip(n / 10);
      assert s[..|s| - 1] == Decimal(n / 10);
    }
  }

  lemma {:induction false} LeadingZerosIgnored(z: nat, s: string)
    requires AllDigits(s)
    ensures AllDigits(Zeros(z) + s)
    ensures Value(Zeros(z) + s) == Value(s)
    decreases |s|
  {
    var zs := Zeros(z);
    if |s| == 0 {
      assert zs + s == zs;
      ZerosAreZero(z);
    } else {
      var t := zs + s;
      assert t[..|t| - 1] == zs + s[..|s| - 1];
      LeadingZerosIgnored(z, s[..|s| - 1]);
    }
  }

  lemma {:induction false} ZerosAreZero(z: nat)
    ensures Value(Zeros(z)) == 0
    decreases z
  {
    if z > 0 {
      assert Zeros(z)[..z - 1] == Zeros(z - 1);
      ZerosAreZero(z - 1);
    }
  }

  /** Reading the counter back gives k: the zero padding loses nothing. */
  lemma CounterRoundTrip(k: nat)
    ensures AllDigits(Counter(k))
    ensures Value(Counter(k)) == k
  {
    var d := Decimal(k);
    var c := Counter(k);
    var z := |c| - |d|;
    if z == 0 {
      assert c == d;
    }
    assert c == Zeros(z) + d;
    LeadingZerosIgnored(z, d);
    DecimalRoundTrip(k);
  }

  /** The counter part of a frame name, as the integer it spells. */
  function ParseFrameName(name: string): (k: Option<nat>)
  {
    if |name| >= 10 && name[..6] == NamePrefix && name[|name| - 4..] == NameSuffix
       && forall i :: 6 <= i < |name| - 4 ==> IsDigit(name[i])
    then
      var digits := name[6..|name| - 4];
      assert forall i :: 0 <= i < |digits| ==> digits[i] == name[6 + i];
      Some(Value(digits))
    else None
  }

  lemma {:induction false} FrameNameRoundTrip(k: nat)
    ensures ParseFrameName(FrameName(k)) == Some(k)
  {
    var name := FrameName(k);
    var c := Counter(k);
    CounterRoundTrip(k);
    assert name[6..|name| - 4] == c;
    assert forall i :: 6 <= i < |name| - 4 ==> name[i] == c[i - 6];
  }

  /** Distinct saved frames never share a name. */
  lemma FrameNamesDistinct(i: nat, j: nat)
    requires i != j
    ensures FrameName(i) != FrameName(j)
  {
    FrameNameRoundTrip(i);
    FrameNameRoundTrip(j);
  }
}

=== FILE: frames.dfy ===
/** extract_frames: save every interval-th frame of a video, where
    interval = max(1, total_frames // target_images), numbering the saved files
    frame_000.jpg, frame_001.jpg, ... and stopping after `target_images` saves or at
    the first failed read. The video is the sequence of frames read successfully. */
module Frames {
  import opened Common
  import opened FrameNames

  /** Python's // : the floor of the exact quotient, for either sign of divisor. */
  function FloorDiv(a: int, b: int): (q: int)
    requires b != 0
    ensures b > 0 ==> q * b <= a < q * b + b
    ensures b < 0 ==> q * b + b < a <= q * b
  {
    if b > 0 then a / b else (-a) / (-b)
  }

  /** The sampling interval: the floor of total / target, but never below 1. For a
      negative target that floor is at least 1 only when total < target. */
  function Stride(total: int, target: int): (s: int)
    requires target != 0
    ensures s >= 1
    ensures target > 0 && total >= target ==> s * target <= total < s * target + target
    ensures target > 0 && total < 2 * target ==> s == 1
    ensures target < 0 && total >= target ==> s == 1
    ensures target < 0 && total < target ==> s * target + target < total <= s * target
  {
    var q := FloorDiv(total, target);
    if q >= 1 then q else 1
  }

  /** How many saves happen before the loop stops on its own: the check
      `saved_count >= target_images` follows the first save, so a negative target
      still lets one frame through. */
  function SaveLimit(target: int): (n: nat)
    ensures n >= 1
    ensures target >= 1 ==> n == target
  {
    if target >= 1 then target else 1
  }

  /** Number of frame indices in [0, n) that are multiples of s. */
  function Multiples(n: nat, s: int): nat
    requires s >= 1
  {
    (n + s - 1) / s
  }

  function Min(a: int, b: int): int
  {
    if a <= b then a else b
  }

  datatype SavedFrame<F> = SavedFrame(path: string, frame: F)

  datatype ExtractStatus =
    | NotOpened     // cap.isOpened() is false: early return
    | ZeroDivision  // target_images == 0: total_frames // 0 raises
    | Finished

  /** What a call did: whether it created the output folder, how it ended, and the
      frames it wrote, in order. */
  datatype Extraction<F> = Extraction(madeFolder: bool, status: ExtractStatus,
                                      saved: seq<SavedFrame<F>>)

  lemma ProductAtLeast(a: int, s: int)
    requires a >= 1 && s >= 1
    ensures a * s >= s
  {
  }

  lemma DivOfMultiplePlus(q: int, s: int, m: int)
    requires s >= 1 && 0 <= m < s
    ensures (q * s + m) / s == q
  {
    var d := (q * s + m) / s;
    var r := (q * s + m) % s;
    assert d * s + r == q * s + m;
    assert (d - q) * s == m - r;
    if d > q {
      ProductAtLeast(d - q, s);
    } else if d < q {
      ProductAtLeast(q - d, s);
    }
  }

  /** One more frame index adds a multiple exactly when the index is one. */
  lemma MultiplesStep(c: nat, s: int)
    requires s >= 1
    ensures Multiples(c + 1, s) == Multiples(c, s) + (if c % s == 0 then 1 else 0)
    ensures c % s == 0 ==> Multiples(c, s) * s == c
  {
    var q := c / s;
    var r := c % s;
    assert c == q * s + r;
    if r == 0 {
      DivOfMultiplePlus(q, s, s - 1);
      assert c + s - 1 == q * s + (s - 1);
      DivOfMultiplePlus(q + 1, s, 0);
      assert c + 1 + s - 1 == (q + 1) * s + 0;
    } else {
      DivOfMultiplePlus(q + 1, s, r - 1);
      assert c + s - 1 == (q + 1) * s + (r - 1);
      DivOfMultiplePlus(q + 1, s, r);
      assert c + 1 + s - 1 == (q + 1) * s + r;
    }
  }

  lemma MultiplesMonotone(a: nat, b: nat, s: int)
    requires s >= 1 && a <= b
    ensures Multiples(a, s) <= Multiples(b, s)
  {
    var x, y := a + s - 1, b + s - 1;
    var qx, qy := x / s, y / s;
    assert qx * s + x % s == x && qy * s + y % s == y;
    if qx > qy {
      ProductAtLeast(qx - qy, s);
    }
  }

  /** Where the k-th saved frame goes. */
  function FramePath(folder: string, k: nat): string
  {
    PathJoin(folder, FrameName(k))
  }

  /** The read loop: frame `count` is saved, under the name `pathOf` gives the current
      save count, when count % interval == 0; the loop ends after the save that
      reaches `target` or when the frames run out. */
  method SampleLoop<F>(pathOf: nat -> string, interval: int, target: int, frames: seq<F>)
    returns (saved: seq<SavedFrame<F>>)
    requires interval >= 1
    ensures |saved| == Min(SaveLimit(target), Multiples(|frames|, interval))
    ensures forall k :: 0 <= k < |saved| ==>
      && k * interval < |frames|
      && saved[k] == SavedFrame(pathOf(k), frames[k * interval])
  {
    var count := 0;
    saved := [];
    while count < |frames|
      invariant 0 <= count <= |frames|
      invariant |saved| == Multiples(count, interval)
      invariant |saved| < SaveLimit(target)
      invariant forall k :: 0 <= k < |saved| ==>
        && k * interval < count
        && saved[k] == SavedFrame(pathOf(k), frames[k * interval])
    {
      MultiplesStep(count, interval);
      if count % interval == 0 {
        saved := saved + [SavedFrame(pathOf(|saved|), frames[count])];
        if |saved| >= target {
          MultiplesMonotone(count + 1, |frames|, interval);
          return;
        }
      }
      count := count + 1;
    }
  }

  /** extract_frames(video_path, output_folder, target_images). `folderExists` is the
      os.path.exists check, `isOpen` cap.isOpened(), `total` the frame-count
      property, and `frames` the frames cap.read() delivers before its first failure. */
  method ExtractFrames<F>(folder: string, folderExists: bool, isOpen: bool,
                          total: int, target: int, frames: seq<F>)
    returns (x: Extraction<F>)
    ensures x.madeFolder == !folderExists
    ensures !isOpen ==> x.status == NotOpened && x.saved == []
    ensures isOpen && target == 0 ==> x.status == ZeroDivision && x.saved == []
    ensures isOpen && target != 0 ==>
      var s := Stride(total, target);
      && x.status == Finished
      && |x.saved| == Min(SaveLimit(target), Multiples(|frames|, s))
      && forall k :: 0 <= k < |x.saved| ==>
           && k * s < |frames|
           && x.saved[k] == SavedFrame(FramePath(folder, k), frames[k * s])
    ensures target >= 1 ==> |x.saved| <= target
  {
    if !isOpen {
      return Extraction(!folderExists, NotOpened, []);
    }
    if target == 0 {
      return Extraction(!folderExists, ZeroDivision, []);
    }
    var saved := SampleLoop((k: nat) => FramePath(folder, k), Stride(total, target), target, frames);
    return Extraction(!folderExists, Finished, saved);
  }
}

=== FILE: server.dfy ===
/** The POST /detect handler (detect_objects): two guards outside the try block,
    then read, predict, save and answer inside it, with every exception raised in
    the try block turned into a 500 by the catch-all handler. */
module Server {
  import opened Common
  import Detector

  const ResultsDir := "static/results"
  const UrlPrefix := "/static/results/"
  const ImageTypePrefix := "image/"

  const ModelNotLoaded := "Model not loaded"
  const BadContentType := "Invalid file type. Please upload an image."
  const BadImage := "Invalid image file. Please upload a valid image."

  /** The exceptions the `except Exception` clause catches. */
  datatype Caught =
    | PredictFailed(error: Detector.PredictError)  // raised from inside predict
    | InvalidImage                                 // the HTTPException(400) for an undecodable upload

  /** The detail of an error response: a fixed message, or str() of a caught exception. */
  datatype Detail = Message(text: string) | FromException(caught: Caught)

  datatype Response =
    | Success(filename: string, imageUrl: string, detectionsCount: nat,
              detections: seq<Detector.Detection>)
    | HttpError(status: nat, detail: Detail)

  /** One cv2.imwrite of the annotated image. */
  datatype Write<I> = Write(path: string, image: I)

  /** The response together with what the handler did on the way: whether it read
      the upload body, the model calls made, and the files written. */
  datatype Handling<I> = Handling(response: Response, bodyRead: bool,
                                  modelCalls: seq<real>, writes: seq<Write<I>>)

  /** The handler body, with one switch: whether the 400 for an undecodable image
      escapes the catch-all (`passHttp`) or is caught by it like any other exception. */
  function Handle<I>(loaded: bool, contentType: string, body: seq<byte>,
                     decode: seq<byte> -> Detector.Decoding<I>,
                     infer: (I, real) -> Detector.Inference<I>,
                     stem: string, passHttp: bool): Handling<I>
  {
    if !loaded then Handling(HttpError(500, Message(ModelNotLoaded)), false, [], [])
    else if !StartsWith(contentType, ImageTypePrefix) then
      Handling(HttpError(400, Message(BadContentType)), false, [], [])
    else
      var p := Detector.Predict(decode(body), infer);
      match p.outcome
      case Raised(e) => Handling(HttpError(500, FromException(PredictFailed(e))), true, p.modelCalls, [])
      case Undecodable =>
        var r := if passHttp then HttpError(400, Message(BadImage))
                 else HttpError(500, FromException(InvalidImage));
        Handling(r, true, p.modelCalls, [])
      case Predicted(img, dets) =>
        var filename := stem + ".jpg";
        Handling(Success(filename, UrlPrefix + filename, |dets|, dets), true, p.modelCalls,
                 [Write(PathJoin(ResultsDir, filename), img)])
  }

  /** detect_objects as written. `loaded` says whether the global detector exists,
      `decode` is cv2.imdecode, `infer` the model, `stem` the uuid4 text. */
  function DetectObjects<I>(loaded: bool, contentType: string, body: seq<byte>,
                            decode: seq<byte> -> Detector.Decoding<I>,
                            infer: (I, real) -> Detector.Inference<I>,
                            stem: string): (h: Handling<I>)
    // the missing model is reported first, whatever the content type
    ensures !loaded ==> h == Handling(HttpError(500, Message(ModelNotLoaded)), false, [], [])
    // a non-image content type is refused before the body is read or the model runs
    ensures loaded && !StartsWith(contentType, ImageTypePrefix) ==>
      h == Handling(HttpError(400, Message(BadContentType)), false, [], [])
    // the only 400 is the content-type refusal
    ensures h.response.HttpError? && h.response.status == 400 <==>
      loaded && !StartsWith(contentType, ImageTypePrefix)
    // every failure is a 400 or a 500
    ensures h.response.HttpError? ==> h.response.status in {400, 500}
    // past the guards the model runs exactly once, at the fixed threshold, iff the upload decodes
    ensures h.bodyRead <==> loaded && StartsWith(contentType, ImageTypePrefix)
    ensures h.modelCalls == (if h.bodyRead && decode(body).Image? then [Detector.Threshold] else [])
    // an undecodable upload surfaces as a 500 carrying the caught 400
    ensures h.bodyRead && decode(body).NotAnImage? ==>
      h.response == HttpError(500, FromException(InvalidImage))
    // an exception escaping predict is a 500 carrying that exception
    ensures h.bodyRead && decode(body).DecodeRaised? ==>
      h.response == HttpError(500, FromException(PredictFailed(Detector.DecodeFailed)))
    ensures h.bodyRead && Detector.Predict(decode(body), infer).outcome.Raised? ==>
      h.response == HttpError(500, FromException(PredictFailed(
                      Detector.Predict(decode(body), infer).outcome.error)))
    // success: the detections are exactly predict's, counted, and the image is saved once
    ensures h.response.Success? <==> h.bodyRead && Detector.Predict(decode(body), infer).outcome.Predicted?
    ensures h.response.Success? ==>
      var out := Detector.Predict(decode(body), infer).outcome;
      && h.response.detections == out.detections
      && h.response.detectionsCount == |h.response.detections|
      && h.response.filename == stem + ".jpg"
      && EndsWith(h.response.filename, ".jpg")
      && h.response.imageUrl == UrlPrefix + h.response.filename
      && h.writes == [Write(PathJoin(ResultsDir, h.response.filename), out.annotated)]
    ensures !h.response.Success? ==> h.writes == []
  {
    Handle(loaded, contentType, body, decode, infer, stem, false)
  }

  /** detect_objects as evidently intended: the 400 for an undecodable upload reaches
      the client instead of being folded into a 500. */
  function DetectObjectsIntended<I>(loaded: bool, contentType: string, body: seq<byte>,
                                    decode: seq<byte> -> Detector.Decoding<I>,
                                    infer: (I, real) -> Detector.Inference<I>,
                                    stem: string): (h: Handling<I>)
    // a 400 means the client sent something unusable; a 500 means the server failed
    ensures h.response.HttpError? && h.response.status == 400 <==>
      loaded && (!StartsWith(contentType, ImageTypePrefix) || decode(body).NotAnImage?)
    ensures h.bodyRead && decode(body).NotAnImage? ==>
      h.response == HttpError(400, Message(BadImage))
    ensures h.response.HttpError? && h.response.status == 500 <==>
      !loaded || (h.bodyRead && Detector.Predict(decode(body), infer).outcome.Raised?)
    ensures h.response.Success? ==> h == DetectObjects(loaded, contentType, body, decode, infer, stem)
  {
    Handle(loaded, contentType, body, decode, infer, stem, true)
  }

  /** As written, an upload that passes both guards but does not decode gets a 500,
      where the corrected handler answers 400. */
  lemma UndecodableUploadIs500<I>(contentType: string, body: seq<byte>,
                                  decode: seq<byte> -> Detector.Decoding<I>,
                                  infer: (I, real) -> Detector.Inference<I>, stem: string)
    requires StartsWith(contentType, ImageTypePrefix)
    requires decode(body).NotAnImage?
    ensures DetectObjects(true, contentType, body, decode, infer, stem).response.status == 500
    ensures DetectObjectsIntended(true, contentType, body, decode, infer, stem).response.status == 400
  {
  }

  /** That is the only difference: every other request is answered alike. */
  lemma HandlersAgreeElsewhere<I>(loaded: bool, contentType: string, body: seq<byte>,
                                  decode: seq<byte> -> Detector.Decoding<I>,
                                  infer: (I, real) -> Detector.Inference<I>, stem: string)
    requires !(loaded && StartsWith(contentType, ImageTypePrefix) && decode(body).NotAnImage?)
    ensures DetectObjects(loaded, contentType, body, decode, infer, stem)
         == DetectObjectsIntended(loaded, contentType, body, decode, infer, stem)
  {
  }
}

=== FILE: text.dfy ===
/** The Python string operations the batch pipeline relies on: str.lower() on the
    characters that matter for file extensions, str.strip(), and str.split(sep). */
module Text {

  /** Python's str.isspace() set: ASCII whitespace, the four information separators,
      and the Unicode space characters. */
  predicate IsSpace(c: char)
  {
    c == ' ' || c == '\t' || c == '\n' || c == '\r' || c == '\U{B}' || c == '\U{C}'
    || ('\U{1C}' <= c <= '\U{1F}') || c == '\U{85}' || c == '\U{A0}' || c == '\U{1680}'
    || ('\U{2000}' <= c <= '\U{200A}') || c == '\U{2028}' || c == '\U{2029}'
    || c == '\U{202F}' || c == '\U{205F}' || c == '\U{3000}'
  }

  function LowerChar(c: char): (d: char)
    ensures 'A' <= c <= 'Z' ==> 'a' <= d <= 'z' && d as int - c as int == 32
    ensures !('A' <= c <= 'Z') ==> d == c
  {
    if 'A' <= c <= 'Z' then (c as int + 32) as char else c
  }

  /** str.lower() restricted to ASCII letters; no other character lower-cases to a
      character of ".png", ".jpeg" or ".jpg", so extension tests are unaffected. */
  function Lower(s: string): (t: string)
    ensures |t| == |s|
    ensures forall i :: 0 <= i < |s| ==> t[i] == LowerChar(s[i])
  {
    seq(|s|, i requires 0 <= i < |s| => LowerChar(s[i]))
  }

  /** str.lstrip(): the longest suffix of `s` that does not start with whitespace. */
  function TrimLeft(s: string): (t: string)
    ensures |t| <= |s| && t == s[|s| - |t|..]
    ensures forall k :: 0 <= k < |s| - |t| ==> IsSpace(s[k])
    ensures |t| == 0 || !IsSpace(t[0])
  {
    if |s| > 0 && IsSpace(s[0]) then TrimLeft(s[1..]) else s
  }

  /** str.rstrip(): the longest prefix of `s` that does not end with whitespace. */
  function TrimRight(s: string): (t: string)
    ensures |t| <= |s| && t == s[..|t|]
    ensures forall k :: |t| <= k < |s| ==> IsSpace(s[k])
    ensures |t| == 0 || !IsSpace(t[|t| - 1])
  {
    if |s| > 0 && IsSpace(s[|s| - 1]) then TrimRight(s[..|s| - 1]) else s
  }

  /** Number of whitespace characters that open `s`. */
  function LeadingSpace(s: string): (n: nat)
    ensures n <= |s|
    ensures forall k :: 0 <= k < n ==> IsSpace(s[k])
    ensures n == |s| || !IsSpace(s[n])
  {
    |s| - |TrimLeft(s)|
  }

  /** str.strip(): `s` without its leading and trailing whitespace; what is removed
      is whitespace and what remains neither starts nor ends with it. */
  function Strip(s: string): (t: string)
    ensures LeadingSpace(s) + |t| <= |s|
    ensures t == s[LeadingSpace(s)..LeadingSpace(s) + |t|]
    ensures forall k :: LeadingSpace(s) + |t| <= k < |s| ==> IsSpace(s[k])
    ensures Stripped(t)
  {
    TrimRight(TrimLeft(s))
  }

  /** Neither the first nor the last character is whitespace. */
  predicate Stripped(t: string)
  {
    |t| == 0 || (!IsSpace(t[0]) && !IsSpace(t[|t| - 1]))
  }

  /** Stripping only removes characters, so it cannot introduce a comma. */
  lemma {:induction false} StripKeepsNoComma(p: string)
    requires ',' !in p
    ensures ',' !in Strip(p)
  {
    var t := Strip(p);
    var n := LeadingSpace(p);
    assert t == p[n..n + |t|];
    assert forall k :: 0 <= k < |t| ==> t[k] in p by {
      forall k | 0 <= k < |t| ensures t[k] in p {
        assert t[k] == p[n + k];
      }
    }
  }

  /** Stripping is idempotent. */
  lemma StripIdempotent(s: string)
    ensures Strip(Strip(s)) == Strip(s)
  {
    StripFixesTrimmed(Strip(s));
  }

  /** Text without surrounding whitespace is left alone. */
  lemma StripFixesTrimmed(s: string)
    requires Stripped(s)
    ensures Strip(s) == s
  {
    assert TrimLeft(s) == s;
  }

  predicate AllSpace(s: string)
  {
    forall i :: 0 <= i < |s| ==> IsSpace(s[i])
  }

  lemma {:induction false} TrimLeftSkipsSpace(w: string, s: string)
    requires AllSpace(w)
    ensures TrimLeft(w + s) == TrimLeft(s)
    decreases |w|
  {
    if |w| > 0 {
      assert (w + s)[1..] == w[1..] + s;
      TrimLeftSkipsSpace(w[1..], s);
    } else {
      assert w + s == s;
    }
  }

  lemma {:induction false} TrimRightSkipsSpace(s: string, w: string)
    requires AllSpace(w)
    ensures TrimRight(s + w) == TrimRight(s)
    decreases |w|
  {
    if |w| > 0 {
      assert (s + w)[..|s + w| - 1] == s + w[..|w| - 1];
      TrimRightSkipsSpace(s, w[..|w| - 1]);
    } else {
      assert s + w == s;
    }
  }

  lemma {:induction false} TrimLeftOfAppend(s: string, w: string)
    requires AllSpace(w)
    requires |TrimLeft(s)| > 0
    ensures TrimLeft(s + w) == TrimLeft(s) + w
    decreases |s|
  {
    if |s| > 0 && IsSpace(s[0]) {
      assert (s + w)[1..] == s[1..] + w;
      TrimLeftOfAppend(s[1..], w);
    }
  }

  /** Trailing whitespace does not change what remains once both ends are trimmed. */
  lemma {:induction false} StripIgnoresTrailingSpace(s: string, w: string)
    requires AllSpace(w)
    ensures TrimRight(TrimLeft(s + w)) == TrimRight(TrimLeft(s))
  {
    if |TrimLeft(s)| > 0 {
      TrimLeftOfAppend(s, w);
      TrimRightSkipsSpace(TrimLeft(s), w);
    } else {
      AllSpaceWhenTrimmedAway(s);
      TrailingSpaceOfBlank(s, w);
    }
  }

  /** Text and padding that are all whitespace strip to nothing. */
  lemma {:induction false} TrailingSpaceOfBlank(s: string, w: string)
    requires AllSpace(s) && AllSpace(w)
    ensures TrimLeft(s + w) == [] && TrimLeft(s) == []
  {
    TrimLeftSkipsSpace(s, "");
    assert s + "" == s;
    AllSpaceAppend(s, w);
    TrimLeftSkipsSpace(s + w, "");
    assert s + w + "" == s + w;
  }

  /** A string that lstrip() removes entirely is all whitespace. */
  lemma {:induction false} AllSpaceWhenTrimmedAway(s: string)
    requires |TrimLeft(s)| == 0
    ensures AllSpace(s)
  {
  }

  lemma {:induction false} AllSpaceAppend(s: string, w: string)
    requires AllSpace(s) && AllSpace(w)
    ensures AllSpace(s + w)
  {
    assert forall k :: |s| <= k < |s + w| ==> (s + w)[k] == w[k - |s|];
  }

  /** Leading whitespace does not change the stripped text. */
  lemma {:induction false} StripIgnoresLeadingSpace(w: string, t: string)
    requires AllSpace(w)
    ensures Strip(w + t) == Strip(t)
  {
    TrimLeftSkipsSpace(w, t);
  }

  /** Whitespace added on either side does not change the stripped text. */
  lemma {:induction false} StripIgnoresSurroundingSpace(w1: string, s: string, w2: string)
    requires AllSpace(w1) && AllSpace(w2)
    ensures Strip(w1 + s + w2) == Strip(s)
  {
    var t := s + w2;
    assert w1 + s + w2 == w1 + t;
    StripIgnoresLeadingSpace(w1, t);
    StripIgnoresTrailingSpace(s, w2);
  }

  /** Number of occurrences of `c` in `s`. */
  function Count(s: string, c: char): nat
  {
    if |s| == 0 then 0 else (if s[0] == c then 1 else 0) + Count(s[1..], c)
  }

  /** The pieces of `parts` separated by single `sep` characters ("sep".join(parts)). */
  function Join(parts: seq<string>, sep: char): string
  {
    if |parts| == 0 then ""
    else if |parts| == 1 then parts[0]
    else parts[0] + [sep] + Join(parts[1..], sep)
  }

  /** str.split(sep) with an explicit one-character separator: the pieces between
      separators, including empty ones; splitting "" gives [""]. */
  function Split(s: string, sep: char): (parts: seq<string>)
    ensures |parts| == Count(s, sep) + 1
    ensures forall i :: 0 <= i < |parts| ==> sep !in parts[i]
    ensures Join(parts, sep) == s
    decreases |s|
  {
    if |s| == 0 then [""]
    else
      var rest := Split(s[1..], sep);
      if s[0] == sep then
        assert s == [sep] + s[1..];
        [""] + rest
      else
        var parts := [[s[0]] + rest[0]] + rest[1..];
        assert [s[0]] + rest[0] == [s[0]] + parts[0][1..];
        JoinConsFirst(rest, s[0], sep);
        assert s == [s[0]] + s[1..];
        parts
  }

  lemma JoinConsFirst(parts: seq<string>, c: char, sep: char)
    requires |parts| > 0
    ensures Join([[c] + parts[0]] + parts[1..], sep) == [c] + Join(parts, sep)
  {
    var q := [[c] + parts[0]] + parts[1..];
    assert q[1..] == parts[1..];
  }

  /** Splitting the joined pieces gives the pieces back, when no piece holds the separator. */
  lemma {:induction false} SplitJoin(parts: seq<string>, sep: char)
    requires |parts| > 0
    requires forall i :: 0 <= i < |parts| ==> sep !in parts[i]
    ensures Split(Join(parts, sep), sep) == parts
    decreases |parts|, |parts[0]|
  {
    if |parts[0]| == 0 {
      if |parts| == 1 {
      } else {
        var j := Join(parts, sep);
        assert j == [sep] + Join(parts[1..], sep);
        assert j[1..] == Join(parts[1..], sep);
        SplitJoin(parts[1..], sep);
        assert Split(j, sep) == [""] + parts[1..];
        assert parts == [parts[0]] + parts[1..];
      }
    } else {
      var c := parts[0][0];
      var shorter := [parts[0][1..]] + parts[1..];
      assert shorter[1..] == parts[1..];
      assert forall i :: 0 <= i < |shorter| ==> sep !in shorter[i] by {
        forall i | 0 <= i < |shorter| ensures sep !in shorter[i] {
          if i == 0 {
            assert forall x :: x in parts[0][1..] ==> x in parts[0];
          } else {
            assert shorter[i] == parts[i];
          }
        }
      }
      SplitJoin(shorter, sep);
      JoinConsFirst(shorter, c, sep);
      assert [c] + shorter[0] == parts[0];
      assert [[c] + shorter[0]] + shorter[1..] == parts;
      var j := Join(parts, sep);
      assert j == [c] + Join(shorter, sep);
      assert j[0] == c && c != sep;
      assert j[1..] == Join(shorter, sep);
      var rest := Split(j[1..], sep);
      assert rest == shorter;
      assert Split(j, sep) == [[c] + rest[0]] + rest[1..];
    }
  }
}
